=== FILE: README.md ===
# PintOS virtual memory: supplemental page table, frame claiming and anonymous swap

A Dafny model of the working part of a PintOS (project 3) virtual-memory
implementation, with proofs about it. It covers two pieces.

- **The supplemental page table and frame claiming** (`vm/vm.c`). The
  supplemental page table (SPT) is a per-process map from page-aligned user
  address to page. Insertion rejects duplicates and leaves every other entry
  alone. `spt_less_func` is the key order. `vm_get_frame` allocates a frame
  with no owner. `vm_do_claim_page` links page and frame in both directions,
  installs the hardware mapping and then calls the page's `swap_in` handler.
- **Anonymous swap-slot bookkeeping** (`vm/anon.c`). The swap table is a
  bitmap of `size` slots, a page → slot record table and the swap disk. Slot
  `idx` occupies sectors `idx * 8 .. idx * 8 + 7`. `anon_swap_out` claims the
  lowest free slot and writes the frame there. `anon_swap_in` reads the slot
  back and frees it. `anon_destroy` either frees the frame of a resident page
  or releases the slot of a swapped-out one.

Everything is a value: `map<VA, PageId>` for the SPT, arenas
`map<PageId, Page>` and `map<FrameId, Frame>` for the C objects (a handle
stands for a pointer), `map<VA, Mapping>` for the hardware page table
(pml4), `seq<bool>` for the bitmap, `map<PageId, nat>` for the swap records,
and `seq<seq<bv8>>` for the swap disk. Operations are pure transition
functions. A kernel `PANIC` is the `Panic` outcome of `Outcomes.Step`.

The model assumes assertions are compiled in (a kernel built without
`NDEBUG`). This matters because three state changes sit inside an `ASSERT`
and happen only when assertions are enabled: the swap record insert at
`vm/anon.c:152` (always made by `Anon.SwapOut`), the record delete at
`vm/anon.c:127` (which makes `Anon.SwapInAsWritten` panic) and the record
delete at `vm/anon.c:185` (always made by `Anon.Destroy`).

The model treats an `ASSERT` in two ways:
- An `ASSERT` on what the caller must supply becomes a `requires`. Examples
  are page alignment, non-NULL pointers, an in-range bitmap index and "the
  page is not in the SPT".
- The `ASSERT` at `vm/anon.c:127` fails whenever it is reached, i.e. for
  every page with a swap record. It is modelled as a panic in the
  as-written member (see Findings).

The swap table invariant `Anon.Valid` says that slot `i` is marked used iff
exactly one record holds it, and that every slot fits on the disk.
`Anon.Init` establishes it. `SwapOut`, `SwapIn` and `Destroy` take it as a
precondition and each preserve it. It implies the bitmap `ASSERT`s at
`vm/anon.c:121` and `vm/anon.c:183`.

Oracles, given as parameters:
- `palloc_get_page`'s result (`Option<VA>`; `None` = empty user pool). A
  returned address is non-NULL and page-aligned, as `vm/vm.c:150` asserts.
- Whether `malloc` succeeds.
- `pml4_set_page`'s answer.
- The answer of the `swap_in` call made by `vm_do_claim_page` through the page's
  operations.
- `disk_get`'s result.
- The bytes of a frame, when `anon_swap_out` writes them.

Some lines of the source do not compile. The model follows their evident meaning:
- `temp->page_va` on a non-pointer (`vm/vm.c:84-85`).
- `return true` in the void `spt_remove_page` (`vm/vm.c:115`).
- `swap_t` is declared `const` and used with `->` (`vm/anon.c:28-34`, `vm/anon.c:71`).
- `page->anon->page` (`vm/anon.c:103`).
- `sector` is undeclared in `anon_swap_out` (`vm/anon.c:154`).
- A missing parenthesis (`vm/anon.c:179`).

`include/vm/vm.h` and `threads/vaddr.h` are not part of this model. The
fields of `struct page` and `struct frame` are taken from their uses in
`vm/vm.c`. `pg_round_down` is taken as "round down to a multiple of 4096".

Behaviour of the code worth knowing:
- If `pml4_set_page` fails, `vm_do_claim_page` returns false. The frame
  stays linked to the page and is not released, and `swap_in` is not called
  (`Frames.FailedInstallLeavesFrameBound`).
- `anon_swap_in` on a page with no swap record returns false. It does not
  zero-fill the frame and report success.
- `vm_do_claim_page` always installs the mapping writable.
- `anon_destroy` leaves the hardware mapping and `page->frame` in place.

## Model

| member | source | states |
|---|---|---|
| PageAddr.RoundDown | vm/vm.c:16 | the rounded address is a multiple of the page size and lies within one page at or below `va` |
| PageAddr.IsPageAddr | vm/vm.c:14-17 | `is_page_addr(va)` holds exactly when `va` is a multiple of 4096 |
| PageAddr.RoundDownIsGreatest | vm/vm.c:14-17 | no page boundary lies strictly between the rounded address and `va` |
| Pages.Resident | vm/anon.c:175 | `pml4_get_page (pml4, va) != NULL`: the page's address is mapped in the hardware page table |
| Pages.LinkedFrameHasOnePage | vm/vm.c:214-216 | while every page/frame link is mutual, two pages pointing at the same frame are the same page |
| Spt.Less | vm/vm.c:240-252 | `spt_less_func`: one entry precedes another exactly when its page address is smaller |
| Spt.LessIsStrictOrder | vm/vm.c:240-252 | `spt_less_func` is irreflexive, asymmetric and transitive |
| Spt.SameKeyIffSameVa | vm/vm.c:240-252 | two entries are equal under the hash table's comparison exactly when their page addresses are equal |
| Spt.Find | vm/vm.c:76-87 | on an aligned address, the result is the page of the entry stored under that key, or NULL when no entry has an equal key |
| Spt.Insert | vm/vm.c:90-110 | succeeds iff the entry allocation succeeds and no entry has the page's address; on success `find(va)` gives the page; on failure the table is unchanged; every other key maps as before and no other key appears |
| Spt.InsertRejectsDuplicate | vm/vm.c:104-108 | after a page is inserted, a second insert at the same address fails and `find` still returns the first page |
| Spt.InsertKeepsWellFormed | vm/vm.c:94-109 | insertion keeps every key aligned, non-NULL and equal to its page's `va` |
| Spt.WellFormedIsInjective | vm/vm.c:102-104 | in a well-formed table no page is registered under two addresses |
| Frames.GetFrame | vm/vm.c:141-157 | panics exactly when the user pool is empty or the frame malloc fails; otherwise the frame has the allocated page-aligned `kva` and no page |
| Frames.DoClaimPage | vm/vm.c:205-220 | panics only through `vm_get_frame`; otherwise frame and page point at each other, `swap_in` is called iff the install succeeded, the result is install ∧ swap-in, a successful install maps `va` to the frame's `kva` writable, and no other page or frame changes |
| Frames.ClaimPage | vm/vm.c:190-202 | a failed page malloc returns false with nothing changed; otherwise a new page at `va` and a new frame holding the allocated `kva` point at each other; panics iff the pool is empty or the frame malloc fails; `swap_in` is called iff the install succeeded; the result is install ∧ swap-in; a successful install maps `va` to the `kva` writable; no existing page or frame changes |
| Frames.DoClaimPageKeepsLinked | vm/vm.c:214-216 | claiming a frameless page keeps every page/frame link mutual, whatever install and swap-in answered |
| Frames.FailedInstallLeavesFrameBound | vm/vm.c:218-219 | when the install fails the result is false, `swap_in` is not called, and the page stays bound to an unmapped frame |
| SwapDisk.IndexToSector | vm/anon.c:69-73 | the first sector of slot `idx` is `idx * 8` and the slot's 8 sectors lie below `size * 8` |
| SwapDisk.SlotsDisjoint | vm/anon.c:69-73 | distinct slots occupy disjoint 8-sector ranges |
| SwapDisk.ReadAfterWrite | vm/anon.c:123-156 | reading a slot's 8 sectors after writing a page image to them gives back exactly that image |
| SwapDisk.WriteSlotKeepsOthers | vm/anon.c:154-156 | writing one slot leaves the contents of a disjoint slot unchanged |
| SwapDisk.WriteSectors | vm/anon.c:154-156 | the sector-by-sector `disk_write` loop stores bytes `i*512 .. i*512+511` of the frame in sector `sector + i` and touches no other sector |
| SwapDisk.ReadSectors | vm/anon.c:123-125 | the sector-by-sector `disk_read` loop fills the frame with the slot's sectors in order |
| Bitmap.FirstClear | vm/anon.c:149 | the result is the lowest clear bit at or after `start`, or none when every bit there is set |
| Bitmap.ScanAndFlip | vm/anon.c:149-151 | `bitmap_scan_and_flip(bm, 0, 1, false)` fails iff every bit is set (bitmap unchanged); otherwise it returns the lowest clear bit, sets it, and changes no other bit |
| Bitmap.SetBit | vm/anon.c:186 | `bitmap_reset`, and `bitmap_set` as used at line 128, on an in-range index: that bit takes the given value, the length and every other bit are unchanged |
| Bitmap.ScanExtendsPrefix | vm/anon.c:149 | on a bitmap used from slot 0 up to `used`, the scan claims slot `used` |
| Anon.ExactlyOneHolder | vm/anon.c:28-34 | under the invariant, a slot's bit is set iff exactly one swap record holds that slot |
| Anon.Init | vm/anon.c:76-89 | panics iff there is no swap disk, it has fewer than 8 sectors, or the tables cannot be created; otherwise the capacity is the sector count divided by 8, all bits are clear, there are no records, and the invariant holds |
| Anon.Initializer | vm/anon.c:92-105 | the page becomes anonymous with its back-pointer on itself, ready for swap-out, and keeps its address and frame; nothing else changes |
| Anon.SwapOut | vm/anon.c:135-160 | on a page that has a record: returns false and changes nothing. Otherwise: panics iff every slot is used; else returns true, claims the lowest free slot, records it for the page, and stores the frame image there. The invariant is preserved |
| Anon.ClaimSlotKeepsValid | vm/anon.c:149-152 | recording a page that has no record in a free slot keeps "bit set iff exactly one record" |
| Anon.HashDelete | vm/anon.c:127 | `hash_delete` on the swap records returns the removed record exactly when the page had one (NULL otherwise) and leaves every other record as it was |
| Anon.SwapIn | vm/anon.c:108-132 | on a page with no record: returns false and changes nothing. On a page with a record: returns true and the slot's image, deletes the record and clears the slot's bit. The invariant is preserved |
| Anon.SwapInAsWritten | vm/anon.c:120-131 | the code as written: returns false with nothing changed for a page with no record |
| Anon.SwapInAsWrittenPanics | vm/anon.c:127 | as written, every swap-in of a page that has a swap record panics, where the intended swap-in succeeds |
| Anon.Destroy | vm/anon.c:164-187 | a resident page: its frame is freed and the swap table is untouched. A swapped-out page: its record is deleted, its bit cleared and memory untouched. The invariant is preserved |
| Anon.DestroyTakesOneBranch | vm/anon.c:175-187 | exactly one of the frame pool and the swap table changes, never both and never neither |
| Anon.SwapOutThenIn | vm/anon.c:120-157 | swap-out of a page with no record, then swap-in, restores the bitmap and the record table and returns the bytes that were written |
| Anon.OtherSwapOutKeepsImage | vm/anon.c:149-156 | swapping out another page keeps this page's slot and the image stored there |
| SwapCapacity.SwapOutAll | vm/anon.c:147-152 | a sequence of swap-outs keeps the invariant and the capacity, keeps existing records, and only adds records for the pages swapped out |
| SwapCapacity.SwapOutOnlyAdds | vm/anon.c:147-152 | a swap-out keeps every existing record and adds none except its own page's |
| SwapCapacity.SwapOutIntoPrefix | vm/anon.c:149-152 | when exactly slots `0 .. used-1` are in use, a page with no record is swapped out into slot `used` |
| SwapCapacity.FullSwapPanics | vm/anon.c:149-151 | when every slot is in use, swapping out a page with no record panics |
| SwapCapacity.InitOf64Sectors | vm/anon.c:83-85 | a 64-sector swap disk gives an empty swap area of 8 slots |
| SwapCapacity.FillsInOrder | vm/anon.c:149-152 | fresh pages swapped out into a bottom-filled area take consecutive slots, one each, while slots remain |
| SwapCapacity.EightSlotDisk | vm/anon.c:83-151 | a 64-sector swap disk has capacity 8: eight fresh pages take slots 0..7 and a ninth swap-out panics |
| Teardown.DeallocPage | vm/vm.c:183-187 | `destroy` then `free`: the page leaves the arena, no other page changes and the hardware mapping is untouched. A resident page's frame is freed and the swap table is untouched; a swapped-out page's record is deleted and its bit cleared, with frames and disk untouched. The invariant is preserved |
| Teardown.DeallocKeepsLinked | vm/vm.c:183-187 | deallocation keeps page/frame links mutual, provided a swapped-out page holds no frame |
| Teardown.SptRemovePageAsWritten | vm/vm.c:112-116 | the code as written: for a page not in the table it leaves the table unchanged and deallocates the page: the page is freed and the hardware mapping untouched; a resident page's frame is freed with the swap table untouched; a swapped-out page's record is deleted and its bit cleared with frames and disk untouched; the swap invariant holds |
| Teardown.RemoveAsWrittenPanics | vm/anon.c:170 | as written, removing a page that is registered in its table panics on `anon_destroy`'s check |
| Teardown.SptRemovePage | vm/vm.c:112-116 | as intended: the entry for the page's address is gone, other entries are untouched, the page is freed and no other page changes. A resident page's frame is freed; a swapped-out page's record is deleted and its bit cleared. The hardware mapping is untouched, the swap invariant holds, and a well-formed table stays well formed |

## Findings

| source | as written | input that shows it | evidently intended | confidence | as-written member | corrected member |
|---|---|---|---|---|---|---|
| vm/anon.c:127 | `ASSERT (!hash_delete (...))` demands that the delete find nothing, but `hash_find` at line 120 has just found the record, so the assertion fails | any anonymous page with a swap record, e.g. straight after a successful `anon_swap_out` | delete the record and assert that it was found, as `anon_destroy` does at line 185; then clear the bit and return true | high (hash_delete returns the removed element; assumes assertions are compiled in, since without them the record is never deleted and nothing panics); not executed | Anon.SwapInAsWritten, Anon.SwapInAsWrittenPanics | Anon.SwapIn, Anon.SwapOutThenIn |
| vm/vm.c:112-116 | `spt_remove_page` calls `vm_dealloc_page` without deleting the page's SPT entry, but `anon_destroy` asserts the page is no longer in the SPT (vm/anon.c:170) | any anonymous page inserted with `spt_insert_page` and then passed to `spt_remove_page` | delete the entry first, then destroy and free the page | medium (holds when `spt_remove_page`'s `spt` argument is the current thread's table, which the model assumes; other page kinds do not reach that assertion); not executed | Teardown.SptRemovePageAsWritten, Teardown.RemoveAsWrittenPanics | Teardown.SptRemovePage |

## Left out

- `vm_try_handle_fault`, `vm_get_victim`, `vm_evict_frame`, `vm_stack_growth`, `vm_handle_wp`, `supplemental_page_table_copy`, `supplemental_page_table_kill` and `vm_alloc_page_with_initializer`: these are stubs (empty, or always NULL/false). There is no fault policy or eviction rank to model.
- `vm_init`, `page_get_type` and `supplemental_page_table_init`: subsystem start-up and a type lookup, with no state of their own beyond `hash_init`.
- `vm/file.c`: every handler is empty and `do_mmap` does not compile. File-backed pages appear only as the `FileBacked` kind.
- `spt_hash_func`, `swap_hash_func`, `swap_less_func` and the hash tables themselves: the tables are modelled by the maps they implement. The swap table is keyed by page identity, as `swap_less_func` compares page pointers.
- The `a_type` field of `struct anon_page`: it is never read.
- The stale `idx` field of a page after swap-in: the model keeps a slot only while its record exists.
- Concurrency: `bitmap_scan_and_flip` is one atomic step, and the frame pool has no lock.
- Hardware and devices: the page-table install, `palloc`, `malloc` and `disk_get` are oracles. `palloc_free_page` only removes the frame from the arena, because the physical pool is not state here.
- Integer widths: addresses and slot indices are unbounded. The `disk_sector_t` cast at `vm/anon.c:72` cannot truncate, because `idx * 8` stays below the disk size.
- Frames.DoClaimPage: the page's `swap_in` handler is a parameter. It is not dispatched to `Anon.SwapIn`, because the operation tables of the other page kinds are empty or not part of this model.
- Frames.ClaimPage: `vm_claim_page` sets only the new page's `va`, so the `swap_in` call at `vm/vm.c:219` goes through an unset operations pointer and its behaviour is undefined. The model invents the page's initial state (kind `Uninit`, no frame) and takes that call's answer as the parameter `swapInOk`.
- Teardown.DeallocPage: covers anonymous pages only. `file_map_destroy` is empty, and the uninitialised page's destroy is not part of this model.

=== FILE: anon.dfy ===
/** Anonymous pages and their swap slots (vm/anon.c). The swap table is one
    state value: the slot count, the slot bitmap, the page -> slot records
    of the swap hash table, and the swap disk itself. */
module Anon {
  import opened Outcomes
  import opened PageAddr
  import opened Pages
  import Spt
  import opened SwapDisk
  import opened Bitmap

  /** struct swap_table together with the swap disk it describes. */
  datatype Swap = Swap(size: nat, bitmap: seq<bool>, slots: map<PageId, nat>, disk: Disk)

  /** The pages whose swap record holds slot `i`. */
  function Holders(s: Swap, i: nat): set<PageId>
  {
    set p | p in s.slots && s.slots[p] == i
  }

  /** The swap table invariant: slot i is marked used exactly when one
      record holds it, and every slot lies on the disk. */
  predicate Valid(s: Swap)
  {
    && |s.bitmap| == s.size
    && s.size * SECTORS_PER_PAGE <= |s.disk|
    && WellSized(s.disk)
    && (forall p :: p in s.slots ==> s.slots[p] < s.size && s.bitmap[s.slots[p]])
    && (forall i :: 0 <= i < s.size && s.bitmap[i] ==> exists p :: p in s.slots && s.slots[p] == i)
    && (forall p, q :: p in s.slots && q in s.slots && s.slots[p] == s.slots[q] ==> p == q)
  }

  /** Valid says, slot by slot: bit set <==> exactly one record holds it. */
  lemma ExactlyOneHolder(s: Swap, i: nat)
    requires Valid(s) && i < s.size
    ensures s.bitmap[i] <==> |Holders(s, i)| == 1
  {
    if s.bitmap[i] {
      var p :| p in s.slots && s.slots[p] == i;
      assert Holders(s, i) == {p};
    } else {
      assert Holders(s, i) == {};
    }
  }

  /** page is an anonymous page whose anon_page.page points back at it. */
  predicate AnonPage(m: Mem, pid: PageId)
  {
    pid in m.pages && m.pages[pid].kind == Anon(pid)
  }

  /** What anon_swap_out asserts of its page: anonymous and holding a
      page-aligned frame. */
  predicate Swappable(m: Mem, pid: PageId)
  {
    && AnonPage(m, pid)
    && m.pages[pid].frame.Some?
    && m.pages[pid].frame.value in m.frames
    && m.frames[m.pages[pid].frame.value].kva != 0
    && IsPageAddr(m.frames[m.pages[pid].frame.value].kva)
  }

  /** The first sector of the slot recorded for `pid`. */
  function SlotSector(s: Swap, pid: PageId): (sector: nat)
    requires Valid(s) && pid in s.slots
    ensures SlotSized(s.disk, sector)
  {
    IndexToSector(s.slots[pid], s.size)
  }

  /** vm_anon_init. `swapDisk` is disk_get(1, 1) (None = no swap disk) and
      `tablesOk` whether the bitmap and hash table could be created. */
  function Init(swapDisk: Option<Disk>, tablesOk: bool): (r: Step<Swap>)
    requires swapDisk.Some? ==> WellSized(swapDisk.value)
    ensures r.Panic? <==> swapDisk.None? || |swapDisk.value| < SECTORS_PER_PAGE || !tablesOk
    ensures r.Done? ==>
      && Valid(r.value)
      && r.value.disk == swapDisk.value
      && r.value.size * SECTORS_PER_PAGE <= |swapDisk.value| < (r.value.size + 1) * SECTORS_PER_PAGE
      && r.value.slots == map[]
      && (forall i :: 0 <= i < r.value.size ==> !r.value.bitmap[i])
  {
    if swapDisk.None? then Panic("Unable to get swap disk")
    else
      var size := |swapDisk.value| / SECTORS_PER_PAGE;
      if size == 0 then Panic("The swap disk is too small to store a page")
      else if !tablesOk then Panic("Unable to create swap table")
      else Done(Swap(size, seq(size, i => false), map[], swapDisk.value))
  }

  /** anon_initializer(page, VM_ANON, kva): install the anonymous operations
      and point anon_page.page back at the page. `kva` being page-aligned is
      not asserted here: it holds because every frame's kva comes from
      vm_get_frame, which asserts it. The constant `true` it returns is not
      part of the result. */
  function Initializer(m: Mem, pid: PageId, kva: VA): (r: Mem)
    requires pid in m.pages && kva != 0 && IsPageAddr(m.pages[pid].va)
    requires m.pages[pid].frame.Some? && m.pages[pid].frame.value in m.frames
    requires m.frames[m.pages[pid].frame.value].kva == kva
    requires IsPageAddr(kva)
    ensures Swappable(r, pid)
    ensures r.pages[pid].va == m.pages[pid].va && r.pages[pid].frame == m.pages[pid].frame
    ensures r.pages.Keys == m.pages.Keys
    ensures forall p :: p in m.pages && p != pid ==> r.pages[p] == m.pages[p]
    ensures r.frames == m.frames && r.pml4 == m.pml4
  {
    m.(pages := m.pages[pid := m.pages[pid].(kind := Anon(pid))])
  }

  /** Outcome of anon_swap_out: its return value and the swap state after. */
  datatype SwapOutResult = SwapOutResult(ok: bool, swap: Swap)

  /** anon_swap_out(page). `kpage` is the content of the page's frame. */
  function SwapOut(s: Swap, m: Mem, pid: PageId, kpage: seq<Byte>): (r: Step<SwapOutResult>)
    requires Valid(s) && Swappable(m, pid) && |kpage| == PAGE_SIZE
    ensures pid in s.slots ==> r == Done(SwapOutResult(false, s))
    ensures pid !in s.slots ==> (r.Panic? <==> forall j :: 0 <= j < s.size ==> s.bitmap[j])
    ensures pid !in s.slots && r.Done? ==> r.value.ok
    ensures r.Done? ==> Valid(r.value.swap) && r.value.swap.size == s.size
    ensures r.Done? && r.value.ok ==>
      var t := r.value.swap;
      && pid in t.slots
      && var idx := t.slots[pid];
      && idx < s.size && !s.bitmap[idx]
      && (forall j :: 0 <= j < idx ==> s.bitmap[j])
      && t.bitmap == s.bitmap[idx := true]
      && t.slots == s.slots[pid := idx]
      && ReadSlot(t.disk, IndexToSector(idx, s.size)) == kpage
  {
    if pid in s.slots then Done(SwapOutResult(false, s))
    else
      var scan := ScanAndFlip(s.bitmap);
      match scan.idx
      case None => Panic("Not enough space in the swap memory to store page")
      case Some(idx) =>
        var sector := IndexToSector(idx, s.size);
        var disk' := WriteSlot(s.disk, sector, kpage);
        WriteSlotWellSized(s.disk, sector, kpage);
        ReadAfterWrite(s.disk, sector, kpage);
        assert scan.bm == s.bitmap[idx := true];
        ClaimSlotKeepsValid(s, pid, idx, disk');
        Done(SwapOutResult(true, s.(bitmap := scan.bm, slots := s.slots[pid := idx], disk := disk')))
  }

  /** Recording a fresh page in a clear slot keeps the table invariant. */
  lemma ClaimSlotKeepsValid(s: Swap, pid: PageId, idx: nat, d': Disk)
    requires Valid(s) && pid !in s.slots
    requires idx < s.size && !s.bitmap[idx]
    requires |d'| == |s.disk| && WellSized(d')
    ensures Valid(s.(bitmap := s.bitmap[idx := true], slots := s.slots[pid := idx], disk := d'))
  {
    var t := s.(bitmap := s.bitmap[idx := true], slots := s.slots[pid := idx], disk := d');
    forall i | 0 <= i < t.size && t.bitmap[i]
      ensures exists p :: p in t.slots && t.slots[p] == i
    {
      if i == idx {
        assert t.slots[pid] == i;
      } else {
        var p :| p in s.slots && s.slots[p] == i;
        assert t.slots[p] == i;
      }
    }
  }

  /** hash_delete on the swap record table: the removed record (NULL when
      the page had none) and the table without it. */
  datatype Deleted = Deleted(found: Option<nat>, rest: map<PageId, nat>)

  function HashDelete(slots: map<PageId, nat>, pid: PageId): (r: Deleted)
    ensures r.found.Some? <==> pid in slots
    ensures r.found.Some? ==> r.found.value == slots[pid]
    ensures r.rest.Keys == slots.Keys - {pid}
    ensures forall p :: p in r.rest ==> r.rest[p] == slots[p]
  {
    Deleted(if pid in slots then Some(slots[pid]) else None, slots - {pid})
  }

  /** Outcome of anon_swap_in: its return value, the swap state after, and
      the page image read into the frame (None = frame untouched). */
  datatype SwapInResult = SwapInResult(ok: bool, swap: Swap, loaded: Option<seq<Byte>>)

  /** anon_swap_in(page, kva) as intended: read the slot back, drop the
      record and free the slot. */
  function SwapIn(s: Swap, m: Mem, pid: PageId, kva: VA): (r: SwapInResult)
    requires Valid(s) && AnonPage(m, pid) && kva != 0 && IsPageAddr(kva)
    ensures pid !in s.slots ==> r == SwapInResult(false, s, None)
    ensures pid in s.slots ==>
      && r.ok
      && r.loaded == Some(ReadSlot(s.disk, SlotSector(s, pid)))
      && r.swap.slots == s.slots - {pid}
      && r.swap.bitmap == s.bitmap[s.slots[pid] := false]
      && r.swap.disk == s.disk && r.swap.size == s.size
    ensures Valid(r.swap)
  {
    if pid in s.slots then
      var idx := s.slots[pid];
      var kpage := ReadSlot(s.disk, IndexToSector(idx, s.size));
      var del := HashDelete(s.slots, pid);
      SwapInResult(true, s.(slots := del.rest, bitmap := SetBit(s.bitmap, idx, false)), Some(kpage))
    else
      SwapInResult(false, s, None)
  }

  /** anon_swap_in as written: `ASSERT (!hash_delete (...))` demands that the
      delete find nothing, right after hash_find found the record. */
  function SwapInAsWritten(s: Swap, m: Mem, pid: PageId, kva: VA): (r: Step<SwapInResult>)
    requires Valid(s) && AnonPage(m, pid) && kva != 0 && IsPageAddr(kva)
    ensures pid !in s.slots ==> r == Done(SwapInResult(false, s, None))
  {
    if pid in s.slots then
      var idx := s.slots[pid];
      var kpage := ReadSlot(s.disk, IndexToSector(idx, s.size));
      var del := HashDelete(s.slots, pid);
      if del.found.Some? then Panic("assertion `!hash_delete (&swap_t.table, &anon_page->swap_elem)' failed")
      else Done(SwapInResult(true, s.(slots := del.rest, bitmap := SetBit(s.bitmap, idx, false)), Some(kpage)))
    else
      Done(SwapInResult(false, s, None))
  }

  /** Every swap-in of a page that is actually in swap panics as written. */
  lemma SwapInAsWrittenPanics(s: Swap, m: Mem, pid: PageId, kva: VA)
    requires Valid(s) && AnonPage(m, pid) && kva != 0 && IsPageAddr(kva)
    requires pid in s.slots
    ensures SwapInAsWritten(s, m, pid, kva).Panic?
    ensures SwapIn(s, m, pid, kva).ok
  {
  }

  /** Outcome of anon_destroy: swap state and memory objects after. */
  datatype Destroyed = Destroyed(swap: Swap, mem: Mem)

  /** What anon_destroy asserts of an anonymous page apart from its absence
      from the supplemental page table: a resident page is linked to its
      frame and has no swap record; a non-resident one has a record. */
  predicate CanDestroy(s: Swap, m: Mem, pid: PageId)
  {
    && Valid(s) && AnonPage(m, pid)
    && m.pages[pid].va != 0 && IsPageAddr(m.pages[pid].va)
    && (Resident(m, m.pages[pid].va) ==>
          && m.pages[pid].frame.Some? && m.pages[pid].frame.value in m.frames
          && m.frames[m.pages[pid].frame.value].page == Some(pid)
          && pid !in s.slots)
    && (!Resident(m, m.pages[pid].va) ==> pid in s.slots)
  }

  /** anon_destroy(page): free the frame of a resident page, or release the
      swap slot of a swapped-out one. The page must already be out of the
      supplemental page table `spt`, which stands for the current thread's
      table `thread_current ()->spt`. */
  function Destroy(s: Swap, m: Mem, spt: Spt.Table, pid: PageId): (r: Destroyed)
    requires CanDestroy(s, m, pid)
    requires Spt.Find(spt, m.pages[pid].va).None?
    ensures Valid(r.swap)
    ensures Resident(m, m.pages[pid].va) ==>
      && r.swap == s
      && r.mem.frames == m.frames - {m.pages[pid].frame.value}
      && r.mem.pages == m.pages && r.mem.pml4 == m.pml4
    ensures !Resident(m, m.pages[pid].va) ==>
      && r.mem == m
      && r.swap.slots == s.slots - {pid}
      && r.swap.bitmap == s.bitmap[s.slots[pid] := false]
      && r.swap.disk == s.disk && r.swap.size == s.size
  {
    var page := m.pages[pid];
    if page.va in m.pml4 then
      Destroyed(s, m.(frames := m.frames - {page.frame.value}))
    else
      var idx := s.slots[pid];
      var del := HashDelete(s.slots, pid);
      Destroyed(s.(slots := del.rest, bitmap := SetBit(s.bitmap, idx, false)), m)
  }

  /** anon_destroy touches exactly one of the two resources: the frame pool
      or the swap table, never both and never neither. */
  lemma DestroyTakesOneBranch(s: Swap, m: Mem, spt: Spt.Table, pid: PageId)
    requires CanDestroy(s, m, pid)
    requires Spt.Find(spt, m.pages[pid].va).None?
    ensures (Destroy(s, m, spt, pid).swap == s) != (Destroy(s, m, spt, pid).mem == m)
  {
    var r := Destroy(s, m, spt, pid);
    if Resident(m, m.pages[pid].va) {
      assert m.pages[pid].frame.value !in r.mem.frames;
    } else {
      assert pid !in r.swap.slots;
    }
  }

  /** Round trip: swap-out of a page with no record, then swap-in, restores
      the bitmap and the record table and hands back the page image written. */
  lemma SwapOutThenIn(s: Swap, m: Mem, pid: PageId, kpage: seq<Byte>, kva: VA)
    requires Valid(s) && Swappable(m, pid) && |kpage| == PAGE_SIZE
    requires pid !in s.slots
    requires kva != 0 && IsPageAddr(kva)
    requires SwapOut(s, m, pid, kpage).Done?
    ensures var out := SwapOut(s, m, pid, kpage).value;
            var back := SwapIn(out.swap, m, pid, kva);
            && out.ok && back.ok
            && back.swap.bitmap == s.bitmap
            && back.swap.slots == s.slots
            && back.loaded == Some(kpage)
  {
    var out := SwapOut(s, m, pid, kpage).value;
    var idx := out.swap.slots[pid];
    var back := SwapIn(out.swap, m, pid, kva);
    assert out.ok && back.ok;
    assert back.loaded == Some(kpage) by {
      assert SlotSector(out.swap, pid) == IndexToSector(idx, s.size);
    }
    assert back.swap.bitmap == s.bitmap by {
      assert back.swap.bitmap == s.bitmap[idx := true][idx := false];
    }
    assert back.swap.slots == s.slots by {
      RecordThenDelete(s.slots, pid, idx);
    }
  }

  /** Adding a record for a page that had none and deleting it again
      gives back the original table. */
  lemma RecordThenDelete(slots: map<PageId, nat>, pid: PageId, idx: nat)
    requires pid !in slots
    ensures slots[pid := idx] - {pid} == slots
  {
  }

  /** Swapping out another page leaves this page's swapped image intact. */
  lemma OtherSwapOutKeepsImage(s: Swap, m: Mem, pid: PageId, q: PageId, kpage: seq<Byte>)
    requires Valid(s) && Swappable(m, q) && |kpage| == PAGE_SIZE
    requires pid in s.slots && q != pid
    requires SwapOut(s, m, q, kpage).Done?
    ensures var t := SwapOut(s, m, q, kpage).value.swap;
            pid in t.slots && t.slots[pid] == s.slots[pid]
            && ReadSlot(t.disk, SlotSector(t, pid)) == ReadSlot(s.disk, SlotSector(s, pid))
  {
    var out := SwapOut(s, m, q, kpage).value;
    if out.ok {
      var j := out.swap.slots[q];
      var i := s.slots[pid];
      assert i != j;
      var first := IndexToSector(j, s.size);
      var other := IndexToSector(i, s.size);
      if i < j {
        assert other + SECTORS_PER_PAGE <= first;
      } else {
        assert first + SECTORS_PER_PAGE <= other;
      }
      WriteSlotKeepsOthers(s.disk, first, kpage, other);
    }
  }
}

=== FILE: bitmap.dfy ===
/** The swap-slot bitmap, as used by vm/anon.c: bit i set = slot i in use. */
module Bitmap {
  import opened Outcomes

  /** The lowest index at or after `start` whose bit is clear, if any. */
  function FirstClear(bm: seq<bool>, start: nat): (r: Option<nat>)
    requires start <= |bm|
    ensures r.Some? ==> start <= r.value < |bm| && !bm[r.value]
    ensures r.Some? ==> forall j :: start <= j < r.value ==> bm[j]
    ensures r.None? ==> forall j :: start <= j < |bm| ==> bm[j]
    decreases |bm| - start
  {
    if start == |bm| then None
    else if !bm[start] then Some(start)
    else FirstClear(bm, start + 1)
  }

  /** Outcome of bitmap_scan_and_flip(bm, 0, 1, false): the index found
      (None = BITMAP_ERROR) and the bitmap afterwards. */
  datatype Scan = Scan(idx: Option<nat>, bm: seq<bool>)

  /** bitmap_scan_and_flip(bm, 0, 1, false): find the first clear bit from
      index 0 and set it, as one step. */
  function ScanAndFlip(bm: seq<bool>): (r: Scan)
    ensures |r.bm| == |bm|
    ensures r.idx.None? <==> forall j :: 0 <= j < |bm| ==> bm[j]
    ensures r.idx.None? ==> r.bm == bm
    ensures r.idx.Some? ==>
      && r.idx.value < |bm| && !bm[r.idx.value] && r.bm[r.idx.value]
      && (forall j :: 0 <= j < r.idx.value ==> bm[j])
      && (forall j :: 0 <= j < |bm| && j != r.idx.value ==> r.bm[j] == bm[j])
  {
    match FirstClear(bm, 0)
    case None => Scan(None, bm)
    case Some(i) => Scan(Some(i), bm[i := true])
  }

  /** bitmap_set(bm, i, value), of which bitmap_reset is the `false` case.
      The kernel asserts that `i` is in range. */
  function SetBit(bm: seq<bool>, i: nat, value: bool): (r: seq<bool>)
    requires i < |bm|
    ensures |r| == |bm|
    ensures r[i] == value
    ensures forall j :: 0 <= j < |bm| && j != i ==> r[j] == bm[j]
  {
    bm[i := value]
  }

  /** Exactly the bits below `used` are set. */
  predicate UsedBelow(bm: seq<bool>, used: nat)
  {
    forall i :: 0 <= i < |bm| ==> (bm[i] <==> i < used)
  }

  /** On a bitmap filled from the bottom, the scan claims the next bit up. */
  lemma ScanExtendsPrefix(bm: seq<bool>, used: nat)
    requires UsedBelow(bm, used) && used < |bm|
    ensures ScanAndFlip(bm).idx == Some(used)
    ensures UsedBelow(ScanAndFlip(bm).bm, used + 1)
  {
    assert !bm[used];
  }
}

=== FILE: frames.dfy ===
/** Frame claiming (vm/vm.c): obtain a physical frame, link it with a page in
    both directions, install the hardware mapping and populate the page.
    The allocator, the page-table install and the page's swap_in handler are
    oracles: their answers are parameters. */
module Frames {
  import opened Outcomes
  import opened PageAddr
  import opened Pages

  /** vm_get_frame. `palloc` is what palloc_get_page(PAL_USER) returned
      (None = the user pool is empty) and `mallocOk` whether the struct
      frame could be allocated. */
  function GetFrame(palloc: Option<VA>, mallocOk: bool): (r: Step<Frame>)
    requires palloc.Some? ==> palloc.value != 0 && IsPageAddr(palloc.value)
    ensures r.Panic? <==> palloc.None? || !mallocOk
    ensures r.Done? ==> r.value.kva == palloc.value && IsPageAddr(r.value.kva) && r.value.page.None?
  {
    if palloc.None? then Panic("TODO: Evict a frame")
    else if !mallocOk then Panic("assertion `frame' failed")
    else Done(Frame(palloc.value, None))
  }

  /** What vm_do_claim_page returns and leaves behind. `swapInCalled`
      records whether the page's swap_in handler was invoked. */
  datatype Claim = Claim(ok: bool, mem: Mem, swapInCalled: bool)

  /** vm_do_claim_page(page). `fid` is the handle of the new struct frame;
      `installOk` is pml4_set_page's answer and `swapInOk` the answer the
      page's swap_in handler would give. */
  function DoClaimPage(m: Mem, pid: PageId, fid: FrameId, palloc: Option<VA>, mallocOk: bool,
                       installOk: bool, swapInOk: bool): (r: Step<Claim>)
    requires pid in m.pages && m.pages[pid].va != 0 && IsPageAddr(m.pages[pid].va)
    requires fid !in m.frames
    requires palloc.Some? ==> palloc.value != 0 && IsPageAddr(palloc.value)
    ensures r.Panic? <==> palloc.None? || !mallocOk
    ensures r.Done? ==>
      var c := r.value;
      && fid in c.mem.frames && pid in c.mem.pages
      && c.mem.frames[fid] == Frame(palloc.value, Some(pid))
      && c.mem.pages[pid] == m.pages[pid].(frame := Some(fid))
      && (c.swapInCalled <==> installOk)
      && (c.ok <==> installOk && swapInOk)
      && (installOk ==> c.mem.pml4 == m.pml4[m.pages[pid].va := Mapping(palloc.value, true)])
      && (!installOk ==> c.mem.pml4 == m.pml4)
      && c.mem.pages.Keys == m.pages.Keys
      && c.mem.frames.Keys == m.frames.Keys + {fid}
      && (forall p :: p in m.pages && p != pid ==> c.mem.pages[p] == m.pages[p])
      && (forall f :: f in m.frames ==> c.mem.frames[f] == m.frames[f])
  {
    match GetFrame(palloc, mallocOk)
    case Panic(why) => Panic(why)
    case Done(frame) =>
      var page := m.pages[pid];
      var linked := m.(frames := m.frames[fid := frame.(page := Some(pid))],
                       pages := m.pages[pid := page.(frame := Some(fid))]);
      if installOk then
        Done(Claim(swapInOk, linked.(pml4 := linked.pml4[page.va := Mapping(frame.kva, true)]), true))
      else
        Done(Claim(false, linked, false))
  }

  /** vm_claim_page(va): a fresh struct page for `va` (handle `pid`, or a
      failed malloc), then vm_do_claim_page. The page is not entered into
      the supplemental page table. The source sets only the new page's va;
      the model gives it kind Uninit and no frame, and `swapInOk` stands
      for whatever the call through its unset operations would answer. */
  function ClaimPage(m: Mem, va: VA, pid: PageId, pageMallocOk: bool, fid: FrameId, palloc: Option<VA>,
                     frameMallocOk: bool, installOk: bool, swapInOk: bool): (r: Step<Claim>)
    requires va != 0 && IsPageAddr(va)
    requires pid !in m.pages && fid !in m.frames
    requires palloc.Some? ==> palloc.value != 0 && IsPageAddr(palloc.value)
    ensures !pageMallocOk ==> r == Done(Claim(false, m, false))
    ensures pageMallocOk ==> (r.Panic? <==> palloc.None? || !frameMallocOk)
    ensures r.Done? && pageMallocOk ==>
      var c := r.value;
      && pid in c.mem.pages && c.mem.pages[pid].va == va
      && c.mem.pages[pid].frame == Some(fid)
      && fid in c.mem.frames && c.mem.frames[fid] == Frame(palloc.value, Some(pid))
      && (c.swapInCalled <==> installOk)
      && (c.ok <==> installOk && swapInOk)
      && (installOk ==> c.mem.pml4 == m.pml4[va := Mapping(palloc.value, true)])
      && (!installOk ==> c.mem.pml4 == m.pml4)
      && c.mem.pages.Keys == m.pages.Keys + {pid}
      && c.mem.frames.Keys == m.frames.Keys + {fid}
      && (forall p :: p in m.pages ==> c.mem.pages[p] == m.pages[p])
      && (forall f :: f in m.frames ==> c.mem.frames[f] == m.frames[f])
  {
    if !pageMallocOk then Done(Claim(false, m, false))
    else DoClaimPage(m.(pages := m.pages[pid := Page(va, None, Uninit)]), pid, fid, palloc,
                     frameMallocOk, installOk, swapInOk)
  }

  /** Claiming a frameless page keeps every frame/page link mutual, whatever
      the install and swap_in answers were. */
  lemma DoClaimPageKeepsLinked(m: Mem, pid: PageId, fid: FrameId, palloc: Option<VA>, mallocOk: bool,
                               installOk: bool, swapInOk: bool)
    requires Linked(m)
    requires pid in m.pages && m.pages[pid].va != 0 && IsPageAddr(m.pages[pid].va)
    requires m.pages[pid].frame.None?
    requires fid !in m.frames
    requires palloc.Some? ==> palloc.value != 0 && IsPageAddr(palloc.value)
    requires DoClaimPage(m, pid, fid, palloc, mallocOk, installOk, swapInOk).Done?
    ensures Linked(DoClaimPage(m, pid, fid, palloc, mallocOk, installOk, swapInOk).value.mem)
  {
    var m' := DoClaimPage(m, pid, fid, palloc, mallocOk, installOk, swapInOk).value.mem;
    forall f | f in m'.frames && m'.frames[f].page.Some?
      ensures m'.frames[f].page.value in m'.pages && m'.pages[m'.frames[f].page.value].frame == Some(f)
    {
      if f != fid {
        var p := m.frames[f].page.value;
        assert p != pid;
      }
    }
  }

  /** A failed install leaves the page bound to a frame that is not mapped:
      the frame is neither unlinked nor released. */
  lemma FailedInstallLeavesFrameBound(m: Mem, pid: PageId, fid: FrameId, kva: VA, swapInOk: bool)
    requires pid in m.pages && m.pages[pid].va != 0 && IsPageAddr(m.pages[pid].va)
    requires !Resident(m, m.pages[pid].va)
    requires fid !in m.frames && kva != 0 && IsPageAddr(kva)
    ensures var c := DoClaimPage(m, pid, fid, Some(kva), true, false, swapInOk).value;
            !c.ok && !c.swapInCalled && c.mem.pages[pid].frame == Some(fid)
            && fid in c.mem.frames && !Resident(c.mem, m.pages[pid].va)
  {
  }
}

=== FILE: outcomes.dfy ===
/** Failure-carrying datatypes shared by the whole model. */
module Outcomes {

  /** A value that may be absent; `None` plays the role of a C NULL pointer. */
  datatype Option<+T> = None | Some(value: T)

  /** The outcome of a kernel routine that either completes or PANICs the kernel.
      A `Panic` ends the machine: no later state is observable. */
  datatype Step<+T> = Done(value: T) | Panic(reason: string)
}

=== FILE: page_addr.dfy ===
/** Page geometry of the user address space. */
module PageAddr {

  /** Bytes per virtual page (PGSIZE). */
  const PAGE_SIZE: nat := 4096

  /** A virtual (or kernel-virtual) address; 0 is NULL. */
  type VA = nat

  /** pg_round_down: the page boundary at or below `va`. */
  function RoundDown(va: VA): (base: VA)
    ensures base % PAGE_SIZE == 0
    ensures base <= va < base + PAGE_SIZE
  {
    (va / PAGE_SIZE) * PAGE_SIZE
  }

  /** is_page_addr: rounding down leaves `va` where it is. */
  function IsPageAddr(va: VA): (aligned: bool)
    ensures aligned <==> va % PAGE_SIZE == 0
  {
    RoundDown(va) == va
  }

  /** No page boundary lies strictly between RoundDown(va) and va. */
  lemma RoundDownIsGreatest(va: VA, boundary: VA)
    requires boundary % PAGE_SIZE == 0 && boundary <= va
    ensures boundary <= RoundDown(va)
  {
    var k := boundary / PAGE_SIZE;
    assert boundary == k * PAGE_SIZE;
    assert k <= va / PAGE_SIZE;
  }
}

=== FILE: pages.dfy ===
/** The objects the virtual-memory core links together: pages, frames and the
    hardware page table, kept in arenas indexed by handle (a handle stands for
    the C pointer to a struct page or struct frame). */
module Pages {
  import opened Outcomes
  import opened PageAddr

  /** Handle of a struct page. */
  type PageId = nat
  /** Handle of a struct frame. */
  type FrameId = nat

  /** Which operation table a page carries. `Anon(owner)` also records the
      back-pointer `anon_page.page`, which must name the page itself. */
  datatype PageKind = Uninit | Anon(owner: PageId) | FileBacked

  /** struct page: its user address, its frame (if any) and its kind. */
  datatype Page = Page(va: VA, frame: Option<FrameId>, kind: PageKind)

  /** struct frame: kernel address of the physical page and the page
      resident in it (none while the frame is unclaimed). */
  datatype Frame = Frame(kva: VA, page: Option<PageId>)

  /** One hardware page-table entry: user page -> kernel address. */
  datatype Mapping = Mapping(kva: VA, writable: bool)

  /** The memory objects of one process plus its pml4. */
  datatype Mem = Mem(pages: map<PageId, Page>, frames: map<FrameId, Frame>, pml4: map<VA, Mapping>)

  /** pml4_get_page(pml4, va) != NULL: the page is mapped, i.e. resident. */
  predicate Resident(m: Mem, va: VA)
  {
    va in m.pml4
  }

  /** Frame <-> page mutual consistency: every link has its partner. */
  predicate Linked(m: Mem)
  {
    && (forall p :: p in m.pages && m.pages[p].frame.Some? ==>
          m.pages[p].frame.value in m.frames && m.frames[m.pages[p].frame.value].page == Some(p))
    && (forall f :: f in m.frames && m.frames[f].page.Some? ==>
          m.frames[f].page.value in m.pages && m.pages[m.frames[f].page.value].frame == Some(f))
  }

  /** Under Linked, a frame is lent to at most one page. */
  lemma LinkedFrameHasOnePage(m: Mem, p: PageId, q: PageId)
    requires Linked(m)
    requires p in m.pages && q in m.pages
    requires m.pages[p].frame.Some? && m.pages[p].frame == m.pages[q].frame
    ensures p == q
  {
    var f := m.pages[p].frame.value;
    assert m.frames[f].page == Some(p);
    assert m.frames[f].page == Some(q);
  }
}

=== FILE: spt.dfy ===
/** The supplemental page table: per process, page-aligned user address ->
    the page registered there (vm/vm.c). The hash table of spt_entry
    records is modelled by the map it implements. */
module Spt {
  import opened Outcomes
  import opened PageAddr
  import opened Pages

  type Table = map<VA, PageId>

  /** struct spt_entry: the key and the page it designates. */
  datatype Entry = Entry(pageVa: VA, upage: PageId)

  /** The entries the hash table holds for `spt`. */
  function Entries(spt: Table): set<Entry>
  {
    set va | va in spt :: Entry(va, spt[va])
  }

  /** spt_less_func: order entries by page address. */
  predicate Less(a: Entry, b: Entry)
  {
    a.pageVa < b.pageVa
  }

  /** How the hash table decides two entries are the same element. */
  predicate SameKey(a: Entry, b: Entry)
  {
    !Less(a, b) && !Less(b, a)
  }

  /** spt_less_func is a strict order. */
  lemma LessIsStrictOrder(a: Entry, b: Entry, c: Entry)
    ensures !Less(a, a)
    ensures Less(a, b) ==> !Less(b, a)
    ensures Less(a, b) && Less(b, c) ==> Less(a, c)
  {
  }

  /** Duplicate detection under spt_less_func compares exactly the page address. */
  lemma SameKeyIffSameVa(a: Entry, b: Entry)
    ensures SameKey(a, b) <==> a.pageVa == b.pageVa
  {
  }

  /** Every key is a non-NULL page address and names the page whose va it is. */
  predicate WellFormed(spt: Table, pages: map<PageId, Page>)
  {
    forall va :: va in spt ==>
      va != 0 && IsPageAddr(va) && spt[va] in pages && pages[spt[va]].va == va
  }

  /** spt_find_page: the page held by the entry equal to `va`, or NULL. */
  function Find(spt: Table, va: VA): (r: Option<PageId>)
    requires IsPageAddr(va)
    ensures r.Some? ==> Entry(va, r.value) in Entries(spt)
    ensures r.None? ==> forall e :: e in Entries(spt) ==> !SameKey(e, Entry(va, 0))
  {
    if va in spt then Some(spt[va]) else None
  }

  /** Outcome of spt_insert_page: its return value and the resulting table. */
  datatype InsertResult = InsertResult(ok: bool, spt: Table)

  /** spt_insert_page(spt, page). `entryAllocOk` is whether malloc of the
      spt_entry succeeded. */
  function Insert(spt: Table, id: PageId, page: Page, entryAllocOk: bool): (r: InsertResult)
    requires page.va != 0 && IsPageAddr(page.va)
    ensures r.ok <==> entryAllocOk && Find(spt, page.va).None?
    ensures !r.ok ==> r.spt == spt
    ensures r.ok ==> Find(r.spt, page.va) == Some(id)
    ensures forall va :: va in spt ==> va in r.spt && r.spt[va] == spt[va]
    ensures forall va :: va in r.spt && va != page.va ==> va in spt
  {
    if !entryAllocOk then InsertResult(false, spt)
    else if page.va in spt then InsertResult(false, spt)
    else InsertResult(true, spt[page.va := id])
  }

  /** Once a page is registered, a second page at the same address is refused
      and the table keeps the first. */
  lemma InsertRejectsDuplicate(spt: Table, id: PageId, page: Page, id': PageId, page': Page, ok': bool)
    requires page.va != 0 && IsPageAddr(page.va)
    requires page'.va == page.va
    requires Insert(spt, id, page, true).ok
    ensures var t := Insert(spt, id, page, true).spt;
            !Insert(t, id', page', ok').ok && Find(Insert(t, id', page', ok').spt, page.va) == Some(id)
  {
  }

  /** Insertion keeps the table well formed when the page is the arena's. */
  lemma InsertKeepsWellFormed(spt: Table, pages: map<PageId, Page>, id: PageId, ok: bool)
    requires WellFormed(spt, pages)
    requires id in pages && pages[id].va != 0 && IsPageAddr(pages[id].va)
    ensures WellFormed(Insert(spt, id, pages[id], ok).spt, pages)
  {
  }

  /** In a well-formed table no page is registered under two addresses. */
  lemma WellFormedIsInjective(spt: Table, pages: map<PageId, Page>, va1: VA, va2: VA)
    requires WellFormed(spt, pages)
    requires va1 in spt && va2 in spt && spt[va1] == spt[va2]
    ensures va1 == va2
  {
  }
}

=== FILE: swap_capacity.dfy ===
/** How many pages the swap area takes before anon_swap_out panics. */
module SwapCapacity {
  import opened Outcomes
  import opened PageAddr
  import opened Pages
  import opened SwapDisk
  import opened Bitmap
  import opened Anon

  /** anon_swap_out applied to `ps` in order, stopping at the first panic. */
  function SwapOutAll(s: Swap, m: Mem, ps: seq<PageId>, kpage: seq<Byte>): (r: Step<Swap>)
    requires Valid(s) && |kpage| == PAGE_SIZE
    requires forall i :: 0 <= i < |ps| ==> Swappable(m, ps[i])
    ensures r.Done? ==> Valid(r.value) && r.value.size == s.size
    ensures r.Done? ==> forall p :: p in s.slots ==> p in r.value.slots && r.value.slots[p] == s.slots[p]
    ensures r.Done? ==> forall p :: p in r.value.slots ==> p in s.slots || p in ps
    decreases |ps|
  {
    if |ps| == 0 then Done(s)
    else
      match SwapOut(s, m, ps[0], kpage)
      case Panic(why) => Panic(why)
      case Done(out) =>
        SwapOutOnlyAdds(s, m, ps[0], kpage);
        SwapOutAll(out.swap, m, ps[1..], kpage)
  }

  /** A successful first swap-out hands the rest of the list the swap state it left. */
  lemma SwapOutAllCons(s: Swap, m: Mem, ps: seq<PageId>, kpage: seq<Byte>)
    requires Valid(s) && |kpage| == PAGE_SIZE && |ps| > 0
    requires forall i :: 0 <= i < |ps| ==> Swappable(m, ps[i])
    requires SwapOut(s, m, ps[0], kpage).Done?
    ensures Valid(SwapOut(s, m, ps[0], kpage).value.swap)
    ensures forall i :: 0 <= i < |ps[1..]| ==> Swappable(m, ps[1..][i])
    ensures SwapOutAll(s, m, ps, kpage) == SwapOutAll(SwapOut(s, m, ps[0], kpage).value.swap, m, ps[1..], kpage)
  {
  }

  /** A swap-out keeps every existing record and adds none but its page's. */
  lemma SwapOutOnlyAdds(s: Swap, m: Mem, pid: PageId, kpage: seq<Byte>)
    requires Valid(s) && Swappable(m, pid) && |kpage| == PAGE_SIZE
    requires SwapOut(s, m, pid, kpage).Done?
    ensures var t := SwapOut(s, m, pid, kpage).value.swap;
            && (forall p :: p in s.slots ==> p in t.slots && t.slots[p] == s.slots[p])
            && (forall p :: p in t.slots ==> p in s.slots || p == pid)
  {
  }

  /** Distinct pages, none of them already in swap. */
  predicate Fresh(s: Swap, ps: seq<PageId>)
  {
    && (forall i, j :: 0 <= i < j < |ps| ==> ps[i] != ps[j])
    && (forall i :: 0 <= i < |ps| ==> ps[i] !in s.slots)
  }

  /** On a swap area filled from slot 0 up to `used`, a page without a
      record is swapped out into slot `used`. */
  lemma SwapOutIntoPrefix(s: Swap, m: Mem, pid: PageId, kpage: seq<Byte>, used: nat)
    requires Valid(s) && Swappable(m, pid) && |kpage| == PAGE_SIZE
    requires pid !in s.slots
    requires UsedBelow(s.bitmap, used) && used < s.size
    ensures SwapOut(s, m, pid, kpage).Done?
    ensures var t := SwapOut(s, m, pid, kpage).value;
            && t.ok && Valid(t.swap) && t.swap.size == s.size
            && t.swap.slots == s.slots[pid := used]
            && UsedBelow(t.swap.bitmap, used + 1)
  {
    ScanExtendsPrefix(s.bitmap, used);
    var t := SwapOut(s, m, pid, kpage).value;
    assert t.swap.slots[pid] == used;
  }

  /** After the first page of a fresh list is recorded, the rest is fresh. */
  lemma FreshTail(s: Swap, t: Swap, ps: seq<PageId>)
    requires Fresh(s, ps) && |ps| > 0
    requires t.slots.Keys == s.slots.Keys + {ps[0]}
    ensures Fresh(t, ps[1..])
  {
    forall i | 0 <= i < |ps[1..]|
      ensures ps[1..][i] !in t.slots
    {
      assert ps[1..][i] == ps[i + 1] && ps[i + 1] != ps[0];
    }
  }

  /** The records of `ps` hold consecutive slots from `used` on. */
  predicate Consecutive(slots: map<PageId, nat>, ps: seq<PageId>, used: nat)
  {
    forall i :: 0 <= i < |ps| ==> ps[i] in slots && slots[ps[i]] == used + i
  }

  lemma ConsecutiveCons(slots: map<PageId, nat>, ps: seq<PageId>, used: nat)
    requires |ps| > 0 && ps[0] in slots && slots[ps[0]] == used
    requires Consecutive(slots, ps[1..], used + 1)
    ensures Consecutive(slots, ps, used)
  {
    forall i | 1 <= i < |ps|
      ensures ps[i] in slots && slots[ps[i]] == used + i
    {
      assert ps[1..][i - 1] == ps[i];
    }
  }

  /** On a swap area filled from slot 0 up, fresh pages take the next slots
      in order, one each, as long as slots remain. */
  lemma {:induction false} FillsInOrder(s: Swap, m: Mem, ps: seq<PageId>, kpage: seq<Byte>, used: nat)
    requires Valid(s) && |kpage| == PAGE_SIZE
    requires forall i :: 0 <= i < |ps| ==> Swappable(m, ps[i])
    requires Fresh(s, ps)
    requires UsedBelow(s.bitmap, used) && used + |ps| <= s.size
    ensures SwapOutAll(s, m, ps, kpage).Done?
    ensures UsedBelow(SwapOutAll(s, m, ps, kpage).value.bitmap, used + |ps|)
    ensures Consecutive(SwapOutAll(s, m, ps, kpage).value.slots, ps, used)
    decreases |ps|
  {
    if |ps| > 0 {
      SwapOutIntoPrefix(s, m, ps[0], kpage, used);
      var t := SwapOut(s, m, ps[0], kpage).value.swap;
      SwapOutAllCons(s, m, ps, kpage);
      FreshTail(s, t, ps);
      FillsInOrder(t, m, ps[1..], kpage, used + 1);
      var r := SwapOutAll(t, m, ps[1..], kpage).value;
      assert t.slots[ps[0]] == used;
      ConsecutiveCons(r.slots, ps, used);
    }
  }

  /** A 64-sector disk gives an empty swap area of 8 slots. */
  lemma InitOf64Sectors(d: Disk)
    requires |d| == 64 && WellSized(d)
    ensures Init(Some(d), true).Done?
    ensures var s := Init(Some(d), true).value;
            s.size == 8 && UsedBelow(s.bitmap, 0) && s.slots == map[] && Valid(s)
  {
    var s := Init(Some(d), true).value;
    assert s.size == 8;
  }

  /** A 64-sector swap disk holds exactly 8 pages: eight fresh pages are
      swapped out into slots 0..7 and a ninth swap-out panics. */
  lemma EightSlotDisk(d: Disk, m: Mem, ps: seq<PageId>, q: PageId, kpage: seq<Byte>)
    requires |d| == 64 && WellSized(d) && |kpage| == PAGE_SIZE
    requires |ps| == 8 && forall i, j :: 0 <= i < j < |ps| ==> ps[i] != ps[j]
    requires forall i :: 0 <= i < |ps| ==> Swappable(m, ps[i]) && ps[i] != q
    requires Swappable(m, q)
    ensures Init(Some(d), true).Done? && Init(Some(d), true).value.size == 8
    ensures var full := SwapOutAll(Init(Some(d), true).value, m, ps, kpage);
            && full.Done?
            && Consecutive(full.value.slots, ps, 0)
            && SwapOut(full.value, m, q, kpage).Panic?
  {
    InitOf64Sectors(d);
    var s := Init(Some(d), true).value;
    FillsInOrder(s, m, ps, kpage, 0);
    var full := SwapOutAll(s, m, ps, kpage).value;
    FullSwapPanics(full, m, q, kpage);
  }

  /** When every slot is used, swapping out a page without a record panics. */
  lemma FullSwapPanics(s: Swap, m: Mem, q: PageId, kpage: seq<Byte>)
    requires Valid(s) && Swappable(m, q) && |kpage| == PAGE_SIZE
    requires q !in s.slots && UsedBelow(s.bitmap, s.size)
    ensures SwapOut(s, m, q, kpage).Panic?
  {
  }
}

=== FILE: swap_disk.dfy ===
/** Layout of the swap disk (vm/anon.c): slot `idx` holds one page in the
    SECTORS_PER_PAGE consecutive sectors starting at idx * SECTORS_PER_PAGE. */
module SwapDisk {
  import opened PageAddr

  /** Number of disk sectors that make up a page. */
  const SECTORS_PER_PAGE: nat := 8
  /** Bytes per disk sector (DISK_SECTOR_SIZE). */
  const DISK_SECTOR_SIZE: nat := 512

  type Byte = bv8
  type Sector = seq<Byte>
  /** The swap disk, indexed by disk_sector_t. */
  type Disk = seq<Sector>

  /** Every sector of the disk holds exactly DISK_SECTOR_SIZE bytes. */
  predicate WellSized(d: Disk)
  {
    forall s :: 0 <= s < |d| ==> |d[s]| == DISK_SECTOR_SIZE
  }

  /** index_to_sector: first sector of slot `idx` of a swap area of `size` slots. */
  function IndexToSector(idx: nat, size: nat): (sector: nat)
    requires idx < size
    ensures sector % SECTORS_PER_PAGE == 0 && sector / SECTORS_PER_PAGE == idx
    ensures sector + SECTORS_PER_PAGE <= size * SECTORS_PER_PAGE
  {
    idx * SECTORS_PER_PAGE
  }

  /** Distinct slots occupy disjoint sector ranges. */
  lemma SlotsDisjoint(i: nat, j: nat, size: nat, a: nat, b: nat)
    requires i < size && j < size && i != j
    requires a < SECTORS_PER_PAGE && b < SECTORS_PER_PAGE
    ensures IndexToSector(i, size) + a != IndexToSector(j, size) + b
  {
    if i < j {
      assert IndexToSector(i, size) + SECTORS_PER_PAGE <= IndexToSector(j, size);
    } else {
      assert IndexToSector(j, size) + SECTORS_PER_PAGE <= IndexToSector(i, size);
    }
  }

  /** Bytes of sector `i` of a page image. */
  function Chunk(kpage: seq<Byte>, i: nat): (sector: Sector)
    requires |kpage| == PAGE_SIZE && i < SECTORS_PER_PAGE
    ensures |sector| == DISK_SECTOR_SIZE
  {
    kpage[i * DISK_SECTOR_SIZE .. (i + 1) * DISK_SECTOR_SIZE]
  }

  /** The disk after the page image `kpage` is written to the sectors
      starting at `first`. */
  function WriteSlot(d: Disk, first: nat, kpage: seq<Byte>): (d': Disk)
    requires first + SECTORS_PER_PAGE <= |d| && |kpage| == PAGE_SIZE
    ensures |d'| == |d|
    ensures forall s :: first <= s < first + SECTORS_PER_PAGE ==> d'[s] == Chunk(kpage, s - first)
    ensures forall s :: 0 <= s < |d| && !(first <= s < first + SECTORS_PER_PAGE) ==> d'[s] == d[s]
  {
    seq(|d|, s requires 0 <= s < |d| =>
      if first <= s < first + SECTORS_PER_PAGE then Chunk(kpage, s - first) else d[s])
  }

  /** The sectors starting at `first` all have sector size. */
  predicate SlotSized(d: Disk, first: nat)
  {
    first + SECTORS_PER_PAGE <= |d|
    && forall s :: first <= s < first + SECTORS_PER_PAGE ==> |d[s]| == DISK_SECTOR_SIZE
  }

  /** The page image stored in the sectors starting at `first`. */
  function ReadSlot(d: Disk, first: nat): (kpage: seq<Byte>)
    requires SlotSized(d, first)
    ensures |kpage| == PAGE_SIZE
  {
    seq(PAGE_SIZE, b requires 0 <= b < PAGE_SIZE =>
      d[first + b / DISK_SECTOR_SIZE][b % DISK_SECTOR_SIZE])
  }

  /** Writing a slot keeps the disk well sized. */
  lemma WriteSlotWellSized(d: Disk, first: nat, kpage: seq<Byte>)
    requires WellSized(d)
    requires first + SECTORS_PER_PAGE <= |d| && |kpage| == PAGE_SIZE
    ensures WellSized(WriteSlot(d, first, kpage))
  {
  }

  /** Reading a slot back yields exactly the page image written to it. */
  lemma ReadAfterWrite(d: Disk, first: nat, kpage: seq<Byte>)
    requires first + SECTORS_PER_PAGE <= |d| && |kpage| == PAGE_SIZE
    ensures SlotSized(WriteSlot(d, first, kpage), first)
    ensures ReadSlot(WriteSlot(d, first, kpage), first) == kpage
  {
    var d' := WriteSlot(d, first, kpage);
    var r := ReadSlot(d', first);
    forall b | 0 <= b < PAGE_SIZE
      ensures r[b] == kpage[b]
    {
      var i := b / DISK_SECTOR_SIZE;
      var k := b % DISK_SECTOR_SIZE;
      assert b == i * DISK_SECTOR_SIZE + k;
      assert d'[first + i] == Chunk(kpage, i);
    }
  }

  /** Writing one slot leaves the contents of a disjoint slot as they were. */
  lemma WriteSlotKeepsOthers(d: Disk, first: nat, kpage: seq<Byte>, other: nat)
    requires first + SECTORS_PER_PAGE <= |d| && |kpage| == PAGE_SIZE
    requires SlotSized(d, other)
    requires other + SECTORS_PER_PAGE <= first || first + SECTORS_PER_PAGE <= other
    ensures SlotSized(WriteSlot(d, first, kpage), other)
    ensures ReadSlot(WriteSlot(d, first, kpage), other) == ReadSlot(d, other)
  {
  }

  /** The sector-by-sector disk_write loop of anon_swap_out. */
  method WriteSectors(d: Disk, sector: nat, kpage: seq<Byte>) returns (d': Disk)
    requires sector + SECTORS_PER_PAGE <= |d| && |kpage| == PAGE_SIZE
    ensures d' == WriteSlot(d, sector, kpage)
  {
    d' := d;
    for i := 0 to SECTORS_PER_PAGE
      invariant |d'| == |d|
      invariant forall s :: 0 <= s < |d| ==>
        d'[s] == (if sector <= s < sector + i then Chunk(kpage, s - sector) else d[s])
    {
      d' := d'[sector + i := kpage[i * DISK_SECTOR_SIZE .. (i + 1) * DISK_SECTOR_SIZE]];
    }
  }

  /** The sector-by-sector disk_read loop of anon_swap_in, filling the frame. */
  method ReadSectors(d: Disk, sector: nat) returns (kpage: seq<Byte>)
    requires SlotSized(d, sector)
    ensures kpage == ReadSlot(d, sector)
  {
    kpage := [];
    for i := 0 to SECTORS_PER_PAGE
      invariant |kpage| == i * DISK_SECTOR_SIZE
      invariant forall b :: 0 <= b < |kpage| ==>
        kpage[b] == d[sector + b / DISK_SECTOR_SIZE][b % DISK_SECTOR_SIZE]
    {
      kpage := kpage + d[sector + i];
    }
  }
}

=== FILE: teardown.dfy ===
/** Page deallocation (vm/vm.c): vm_dealloc_page and spt_remove_page for
    anonymous pages, whose destroy handler is anon_destroy. */
module Teardown {
  import opened Outcomes
  import opened Pages
  import Spt
  import opened Anon

  /** The supplemental page table, swap state and memory objects after a removal. */
  datatype Removed = Removed(spt: Spt.Table, swap: Swap, mem: Mem)

  /** vm_dealloc_page: run the page's destroy handler, then free the struct page. */
  function DeallocPage(s: Swap, m: Mem, spt: Spt.Table, pid: PageId): (r: Destroyed)
    requires CanDestroy(s, m, pid)
    requires Spt.Find(spt, m.pages[pid].va).None?
    ensures Valid(r.swap) && r.swap.size == s.size
    ensures r.mem.pages.Keys == m.pages.Keys - {pid}
    ensures forall p :: p in r.mem.pages ==> r.mem.pages[p] == m.pages[p]
    ensures r.mem.pml4 == m.pml4
    ensures Resident(m, m.pages[pid].va) ==>
      r.swap == s && r.mem.frames == m.frames - {m.pages[pid].frame.value}
    ensures !Resident(m, m.pages[pid].va) ==>
      && r.mem.frames == m.frames
      && r.swap.slots == s.slots - {pid}
      && r.swap.bitmap == s.bitmap[s.slots[pid] := false]
      && r.swap.disk == s.disk
  {
    var d := Destroy(s, m, spt, pid);
    d.(mem := d.mem.(pages := d.mem.pages - {pid}))
  }

  /** Deallocating keeps frame/page links mutual, provided a swapped-out page
      no longer holds a frame. */
  lemma DeallocKeepsLinked(s: Swap, m: Mem, spt: Spt.Table, pid: PageId)
    requires CanDestroy(s, m, pid) && Linked(m)
    requires Spt.Find(spt, m.pages[pid].va).None?
    requires !Resident(m, m.pages[pid].va) ==> m.pages[pid].frame.None?
    ensures Linked(DeallocPage(s, m, spt, pid).mem)
  {
    var r := DeallocPage(s, m, spt, pid).mem;
    forall f | f in r.frames && r.frames[f].page.Some?
      ensures r.frames[f].page.value in r.pages && r.pages[r.frames[f].page.value].frame == Some(f)
    {
      assert m.frames[f].page.value in m.pages;
    }
  }

  /** spt_remove_page as written: it deallocates the page but leaves its
      entry in the table, so anon_destroy's check that the page is no longer
      registered fails whenever the page was registered. `spt` is taken to
      be the current thread's table, the one anon_destroy checks. */
  function SptRemovePageAsWritten(spt: Spt.Table, s: Swap, m: Mem, pid: PageId): (r: Step<Removed>)
    requires CanDestroy(s, m, pid)
    ensures Spt.Find(spt, m.pages[pid].va).None? ==> r.Done? && r.value.spt == spt && pid !in r.value.mem.pages
    ensures r.Done? ==>
      && r.value.mem.pages.Keys == m.pages.Keys - {pid}
      && r.value.mem.pml4 == m.pml4 && Valid(r.value.swap)
    ensures r.Done? && Resident(m, m.pages[pid].va) ==>
      r.value.swap == s && r.value.mem.frames == m.frames - {m.pages[pid].frame.value}
    ensures r.Done? && !Resident(m, m.pages[pid].va) ==>
      && r.value.mem.frames == m.frames
      && r.value.swap.slots == s.slots - {pid}
      && r.value.swap.bitmap == s.bitmap[s.slots[pid] := false]
      && r.value.swap.disk == s.disk
  {
    if Spt.Find(spt, m.pages[pid].va).Some? then
      Panic("assertion `!spt_find_page (&thread_current ()->spt, page->va)' failed")
    else
      var d := DeallocPage(s, m, spt, pid);
      Done(Removed(spt, d.swap, d.mem))
  }

  /** Removing a page that is registered in its table panics as written. */
  lemma RemoveAsWrittenPanics(spt: Spt.Table, s: Swap, m: Mem, pid: PageId)
    requires CanDestroy(s, m, pid)
    requires m.pages[pid].va in spt && spt[m.pages[pid].va] == pid
    ensures SptRemovePageAsWritten(spt, s, m, pid).Panic?
  {
    assert Spt.Find(spt, m.pages[pid].va) == Some(pid);
  }

  /** spt_remove_page as intended: delete the page's entry, then deallocate it.
      `spt` is taken to be the current thread's table, the one anon_destroy
      checks. */
  function SptRemovePage(spt: Spt.Table, s: Swap, m: Mem, pid: PageId): (r: Removed)
    requires CanDestroy(s, m, pid)
    ensures Spt.Find(r.spt, m.pages[pid].va).None?
    ensures r.spt.Keys == spt.Keys - {m.pages[pid].va}
    ensures forall va :: va in r.spt ==> r.spt[va] == spt[va]
    ensures pid !in r.mem.pages && r.mem.pages.Keys == m.pages.Keys - {pid}
    ensures forall p :: p in r.mem.pages ==> r.mem.pages[p] == m.pages[p]
    ensures r.mem.pml4 == m.pml4
    ensures Resident(m, m.pages[pid].va) ==>
      r.swap == s && r.mem.frames == m.frames - {m.pages[pid].frame.value}
    ensures !Resident(m, m.pages[pid].va) ==>
      && r.mem.frames == m.frames
      && r.swap.slots == s.slots - {pid}
      && r.swap.bitmap == s.bitmap[s.slots[pid] := false]
      && r.swap.disk == s.disk
    ensures Valid(r.swap)
    ensures Spt.WellFormed(spt, m.pages) ==> Spt.WellFormed(r.spt, r.mem.pages)
  {
    var spt' := spt - {m.pages[pid].va};
    RemoveEntryKeepsWellFormed(spt, m.pages, pid);
    var d := DeallocPage(s, m, spt', pid);
    Removed(spt', d.swap, d.mem)
  }

  /** Dropping a page's entry and the page itself keeps a table well formed. */
  lemma RemoveEntryKeepsWellFormed(spt: Spt.Table, pages: map<PageId, Page>, pid: PageId)
    requires pid in pages
    ensures Spt.WellFormed(spt, pages) ==> Spt.WellFormed(spt - {pages[pid].va}, pages - {pid})
  {
  }
}
